=== FILE: README.md ===
# Messenger user backend: a Dafny model of its decision rules

This project models the core of a small Go user-management backend. The backend
uses PostgreSQL, gin and gin-jwt. Under the SQL and HTTP plumbing there are four
groups of rules, and these are what the model covers:

- **User repository** (`UserRepository`). The `users` table is a sequence of rows
  in scan order, plus the next value of the `id` serial sequence (`UsersTable`).
  Rows are soft-deleted through a nullable `deletedAt`. The model covers `Create`,
  `Read`, `Update`, `Delete`, `FindByLogin` and `List`, each as a pure function
  over the table. Each function also takes the abstract behaviour of its
  transaction (`Tx`): a store fault, and whether the ignored `Commit` succeeds.
  It returns Go's `(value, error)` pair, and the mutating ones also return the new
  table.
- **Identity and role gates** (`UserMiddleware`, `Roles`). This covers the role
  ordinals, the gin-jwt callbacks (`PayloadFunc`, `IdentityHandler`,
  `Authorizator`, `Authenticator`) and `findUser`. It also covers the
  allow/403/500/panic decisions of `RootMiddleware` and `AdminMiddleware`.
- **Banned-pair check** (`BannedCheck`). This is the ordered-pair lookup in
  `users_banned`, which returns `(banned, err)`.
- **Application errors** (`GoErrors`, `AppErrors`, `ErrorMiddleware`). An error is
  a recursive datatype with a one-link unwrap chain and an allocation identity.
  From that, `errors.Is` and `errors.As` are exact. The wrapper maps a handler's
  error to 404, 401, 400, 418, a panic, or no response.

`Query` models the row fetching. `pgxscan.Select` returns every matching row in
scan order. `pgxscan.Get` returns exactly one row, and otherwise an error:
"no row was found" for an empty result and "expected 1 row" for several.

The model keeps these behaviours of the code, even where they look unintended:

- the ban check returns `true` for "banned";
- a pair with no ban row is an error, not "not banned";
- `FindByLogin`, `Authenticator`, `findUser` and the ban check do not filter out
  soft-deleted rows;
- `AdminMiddleware` admits Root only;
- `Delete` of an unknown or deleted id returns `nil`;
- `Update` returns its input, not the stored row;
- an unexpected error is answered with 418, not 500;
- a page number below 1 most likely makes `List` panic, if the scan library
  wraps the PostgreSQL rejection of the negative offset so that the direct type
  assertion fails (see "## Findings");
- an unknown login makes `Authenticator` panic when it indexes an empty result,
  while a wrong password gives `ErrFailedAuthentication`.

These files contain no authorisation table and no friend-edge logic, so neither
is modelled.

## Model

| member | source | states |
|---|---|---|
| `Roles.RoleOrdinals` | internal/middleware/userMiddleware.go:32-36 | Root=1, Admin=2, User=3. A smaller number means more privilege. Only Root and Admin pass the `role <= Admin` test. |
| `UserRepository.Create` | internal/user/db/postgresql.go:21-59 | On a fault: zero user and the error, table unchanged. Otherwise: the INPUT record with only the id replaced by the next serial value, an id that no row had before. A committed insert appends one row with the five inserted columns and column defaults. A lost commit adds no row, but the sequence still advances. Table validity is preserved. |
| `UserRepository.ReadAfterCreate` | internal/user/db/postgresql.go:21-94 | After a committed `Create`, `Read` of the returned id yields exactly the stored row, with the input's login, email and role. |
| `UserRepository.Read` | internal/user/db/postgresql.go:61-94 | A returned user is a row with that id whose `deleted_at` is null. Any failure returns the zero user. With no active row for the id, the result is the zero user and the no-rows error. A store fault is passed through. |
| `UserRepository.ReadSeesActiveRow` | internal/user/db/postgresql.go:63-72 | In a valid table, `Read(id)` succeeds iff the row with that id exists and is active, and it then returns that row. |
| `UserRepository.Update` | internal/user/db/postgresql.go:162-203 | Returns the input record verbatim, with nil error, whether or not a row matched. Only `find_vision` and `add_friend` of the ACTIVE row with that id change. Every other column, every other row, every deleted row and the sequence stay the same. A fault or a lost commit leaves the table unchanged. |
| `UserRepository.ReadAfterUpdate` | internal/user/db/postgresql.go:163-168 | After a committed `Update`, `Read` of that id succeeds iff it did before. It then returns the old row with the two new flags and nothing else changed. |
| `UserRepository.Delete` | internal/user/db/postgresql.go:205-231 | The error is exactly the store fault. Deleting an unknown or already deleted id changes nothing and returns nil. Only the active row with that id is stamped with `deleted_at`, and all other rows stay the same. |
| `UserRepository.ReadAfterDelete` | internal/user/db/postgresql.go:205-231 | After a committed `Delete(id)`, `Read(id)` returns the zero user and the no-rows error. |
| `UserRepository.DeleteIdempotent` | internal/user/db/postgresql.go:206-206 | A second `Delete` of the same id, at any instant, leaves the table unchanged, so the first timestamp stays. |
| `UserRepository.FindByLogin` | internal/user/db/postgresql.go:233-272 | A found user matches the login pattern. For a role above Admin it also has `find_vision = true`. The search succeeds iff exactly one row qualifies. A fault gives the zero user and the error. |
| `UserRepository.FindByLoginByTier` | internal/user/db/postgresql.go:237-241 | Every role `<= Admin`, including the unused 0, searches exactly like Root. Every other role searches exactly like User. |
| `UserRepository.FindByLoginSeesDeleted` | internal/user/db/postgresql.go:237-241 | After a committed `Delete`, `FindByLogin` returns the same error and the same id as before, because soft deletion is not filtered. |
| `UserRepository.List` | internal/user/db/postgresql.go:96-160 | A fault gives the zero pagination and the error. Otherwise it panics iff the int64 offset is negative, because the wrapped PostgreSQL rejection fails the `.(*pgconn.PgError)` assertion at line 116; without a fault it never returns an error. On success, `PageID` and `PageSize` are echoed and `TotalRecords` is the number of active rows. `TotalCount` is the ceiling of `TotalRecords / PageSize`. `Records` holds one page: at most `PageSize` active rows, the contiguous run starting at the offset. |
| `UserRepository.ListOffset` | internal/user/db/postgresql.go:103-111 | Without overflow, the offset is `(PageID-1)*PageSize`, and `List` returns (does not panic) iff `PageID >= 1`. |
| `UserRepository.ListFixed` | internal/user/db/postgresql.go:111-127 | The corrected `List`: it never panics. With no fault, it returns the formatted negative-offset error exactly when the offset is negative and no error otherwise, and wherever `List` returns it gives the same result. |
| `UserRepository.PageZeroPanics` | internal/user/db/postgresql.go:103-116 | Page 0 makes `List` panic, while `ListFixed` answers it with the zero pagination and the formatted negative-offset error. |
| `UserRepository.ListPageIsBlock` | internal/user/db/postgresql.go:97-111 | Without int64 overflow of `(PageID-1)*PageSize`, page `p >= 1` is the `p`-th block of `PageSize` active rows in scan order. |
| `UserRepository.PagesCover` | internal/user/db/postgresql.go:156-158 | Pages 1 to `TotalCount`, concatenated, are exactly the active rows, and none of them is empty. |
| `UserRepository.ListCountExample` | internal/user/db/postgresql.go:156-158 | 25 active rows at page size 10 give 3 pages, and page 1 is the first ten rows. |
| `UserMiddleware.PayloadFunc` | internal/middleware/userMiddleware.go:71-81 | A `Test` value gives exactly the claims {id, role} with its id and role. Anything else gives only {"error": true}. |
| `UserMiddleware.PayloadRejectsPointer` | internal/middleware/userMiddleware.go:71-81 | A `*Test`, the kind of value `IdentityHandler` builds, gets only the error claim. `PayloadFunc` is only ever given `Authenticator`'s `Test` value, so this records that the two callbacks disagree on the identity's type rather than a reachable path. |
| `UserMiddleware.IdentityHandler` | internal/middleware/userMiddleware.go:83-93 | Always a `*Test` whose only non-zero field is the id. The id is the "id" claim when that claim is a `uint`, and 0 otherwise. |
| `UserMiddleware.Authorizator` | internal/middleware/userMiddleware.go:145-150 | True exactly when the identity is a `*Test` pointer. |
| `UserMiddleware.AuthorizatorAdmitsEveryIdentity` | internal/middleware/userMiddleware.go:83-150 | Every identity `IdentityHandler` builds is admitted, whatever the claims. A `Test` value would not be. |
| `UserMiddleware.IdentityHandlerLosesId` | internal/middleware/userMiddleware.go:83-93 | For claims decoded from an issued token, the identity always has id 0. |
| `UserMiddleware.IdentityHandlerFixed` | internal/middleware/userMiddleware.go:83-93 | The corrected reading of the id claim as a `float64`. It is always a `*Test` with only the id set. A float "id" claim `f` gives id `f`, and a non-zero id comes from a float "id" claim. |
| `UserMiddleware.IdentityRoundTrip` | internal/middleware/userMiddleware.go:71-93 | With the corrected reading, the identity of a request carries the id of the user the token was issued for. |
| `UserMiddleware.Authenticator` | internal/middleware/userMiddleware.go:95-143 | An unbound or empty login or password gives `ErrMissingLoginValues`. A fault gives nil and the error. No row with that login panics. Otherwise the FIRST row with that login decides: a password that verifies against it returns that row as a `Test` value with nil error, and one that does not gives `ErrFailedAuthentication`. No other error is returned. |
| `UserMiddleware.LoginClaims` | internal/middleware/userMiddleware.go:71-143 | A successful login yields the claims {id, role} of the first row with that login. |
| `UserMiddleware.AuthenticatorAdmitsDeleted` | internal/middleware/userMiddleware.go:107-142 | A soft-deleted account with a matching password still logs in. |
| `UserMiddleware.FindUser` | internal/middleware/userMiddleware.go:219-252 | Looks up by id without a `deleted_at` filter. A fault gives the zero user and the error. It panics iff no row has the id, and otherwise returns that row. |
| `UserMiddleware.RootMiddleware` | internal/middleware/userMiddleware.go:179-197 | Panics unless the "id" claim is a `float64`. A failed lookup aborts with 500. A role other than Root aborts with 403. Root proceeds. |
| `UserMiddleware.AdminMiddleware` | internal/middleware/userMiddleware.go:199-217 | The identical decision: only Root proceeds. |
| `UserMiddleware.AdminGateRejectsAdmin` | internal/middleware/userMiddleware.go:211-214 | An Admin (role 2) is turned away with 403 by the Admin gate. A Root row proceeds through both gates, even when it is soft-deleted. |
| `UserMiddleware.GatesPanicOnUintClaim` | internal/middleware/userMiddleware.go:182-183 | Claims holding a `uint` id, as `PayloadFunc` builds them before any token decoding, make both gates panic. The gates only see decoded claims, whose id is a `float64`, so this records their dependence on that decoding rather than a reachable path. |
| `BannedCheck.PairRows` | pkg/service/checkingForBannedUser/checkingForBannedUser.go:29-29 | The rows fetched are exactly the rows with `user_id = userID` and `banned_user_id = banUserID`, deleted or not. |
| `BannedCheck.CheckingBannedUser` | pkg/service/checkingForBannedUser/checkingForBannedUser.go:27-63 | Never `true` together with an error. A fault gives `(false, err)`. `banned` holds iff exactly one pair row exists and its id is non-zero. The error is nil iff exactly one pair row exists. No pair row gives `(false, no-rows error)`. |
| `BannedCheck.SingleRowDecides` | pkg/service/checkingForBannedUser/checkingForBannedUser.go:59-62 | With a single pair row, a non-zero id gives `(true, nil)` and id 0 gives `(false, nil)`. |
| `BannedCheck.NoRowIsAnError` | pkg/service/checkingForBannedUser/checkingForBannedUser.go:38-57 | A pair with no ban row yields `false` with the no-rows error, not "not banned". |
| `BannedCheck.PairIsOrdered` | pkg/service/checkingForBannedUser/checkingForBannedUser.go:29-38 | A ban of `b` by `a` is reported for `(a, b)` and not for `(b, a)`. |
| `BannedCheck.DeletedBanStillBans` | pkg/service/checkingForBannedUser/checkingForBannedUser.go:29-29 | A soft-deleted ban row still reads as banned. |
| `AppErrors.NewAppError` | internal/apperror/error.go:17-32 | Stores err, message, developer message and code verbatim. Reading it back, `Error()` is the message and `Unwrap()` is the wrapped error. |
| `AppErrors.Sentinels` | internal/apperror/error.go:5-8 | `ErrNotFound` is ("not found", "US-000001") and `ErrNotAuth` is ("not authorization", "US-000002"). Both have an empty developer message and no cause, and neither is found in the other's chain. |
| `AppErrors.SystemError` | internal/apperror/error.go:42-44 | Message "internal system error", developer message `err.Error()`, code "SE-000001", and it wraps `err`, so `errors.Is` finds it. |
| `GoErrors.IsIffInChain` | internal/apperror/middleware.go:20-24 | `errors.Is(err, target)` holds iff `target` is a link of the unwrap chain. |
| `GoErrors.AsAppErrorFindsFirst` | internal/apperror/middleware.go:19-19 | `errors.As` into `*AppError` succeeds iff some link is an `*AppError`, and it yields the first such link. |
| `ErrorMiddleware.Middleware` | internal/apperror/middleware.go:12-39 | No response iff the handler returned nil. Any JSON answer has status 404, 401, 400 or 418. |
| `ErrorMiddleware.MiddlewareClassifies` | internal/apperror/middleware.go:17-36 | Over the unwrap chain: `ErrNotFound` anywhere gives 404, checked first. Otherwise `ErrNotAuth` anywhere gives 401. Otherwise a top-level `*AppError` gives 400 with itself. Otherwise an `*AppError` deeper in the chain panics. A chain with no `*AppError` gives 418 with a `systemError` wrapping the error. |
| `ErrorMiddleware.WrappedSentinelIsNotFound` | internal/apperror/middleware.go:19-23 | `ErrNotFound` wrapped in another `*AppError` or in a plain error still answers 404. |
| `ErrorMiddleware.WrappedAppErrorPanics` | internal/apperror/middleware.go:29-31 | A plain error wrapping an `*AppError` whose own chain holds neither sentinel makes the wrapper panic. |

## Findings

| source | as written | input that shows it | evidently intended | confidence | as-written member | corrected member |
|---|---|---|---|---|---|---|
| internal/middleware/userMiddleware.go:85 | `IdentityHandler` reads the "id" claim with a `.(uint)` assertion. | Any request carrying a token issued by `PayloadFunc`. The decoded claims hold the id as a JSON number (`float64`), so the assertion fails and the identity is `&Test{ID: 0}`. | Read the claim as `float64`, as `RootMiddleware` and `AdminMiddleware` do at lines 183 and 203, and recover the user's id. | not executed; likely, because it depends on gin-jwt decoding claims through `encoding/json` | `UserMiddleware.IdentityHandlerLosesId` | `UserMiddleware.IdentityHandlerFixed` (with `UserMiddleware.IdentityRoundTrip`) |
| internal/user/db/postgresql.go:116 | `List` recovers the `*pgconn.PgError` with a direct type assertion `err.(*pgconn.PgError)` after `errors.As` at line 115 has already found it in the chain. | `PageID` 0 (any `PageSize >= 1`): the offset is negative, PostgreSQL rejects it, `pgxscan.Select` returns the rejection wrapped, and the assertion panics instead of returning the formatted error. | Use the `pgErr` that `errors.As` filled in, and return the "SQL Error: ..." error built at lines 117-124. | not executed; likely, depends on scany wrapping the PgError | `UserRepository.ListOffset` (with `UserRepository.PageZeroPanics`) | `UserRepository.ListFixed` |

## Left out

- Transactions are abstract. `Begin`, the statement, `Rollback` and `Commit` become
  one `Tx` value (a fault and a commit flag), or a fault alone for the read-only
  operations. When `Begin` fails, the code calls `Rollback` on the returned
  transaction. With pgx that value is nil, so the call would panic. The model
  instead treats a failed `Begin` like a failed statement.
- `pgconn.PgError` handling is left out. This covers the `fmt.Errorf` text built
  from it and the type assertion that would panic if the `PgError` were not the
  top-level error. The store fault is the error the operation finally returns,
  so a fault stands for an error that is not a PostgreSQL error (a connection
  failure, say). A PostgreSQL error from a `pgxscan` call most likely arrives
  wrapped by the scan library, in which case `errors.As` succeeds and the direct
  type assertion panics. The model includes that panic in one place, `List`
  with a negative offset, and records it under "## Findings".
- Logging, `Marshal` (JSON encoding of an `AppError`), gin routing and response
  rendering, configuration loading, the connection client and `main` are
  process wiring, not decision logic.
- JWT signing, verification, expiry (100 minutes), refresh (1000 minutes), the
  `Unauthorized` and `RefreshResponse` callbacks and token lookup belong to the
  gin-jwt library. The claims are inputs. `DecodedClaims` stands only for the
  decoder turning numbers into `float64`. The library's own claims ("exp",
  "orig_iat") are not modelled.
- bcrypt is the opaque `verify(hash, password)` parameter. SQL `LIKE` is the opaque
  `like(pattern, login)` parameter.
- UserRepository.FindByLogin reads the Root/Admin query (role `<= Admin`,
  internal/user/db/postgresql.go:238) as if its stray `AND id` were absent. As
  written, PostgreSQL rejects that query, because `id` is an integer and AND
  needs a boolean operand, so every Root or Admin `FindByLogin` fails. If the
  scan library wraps that rejection, as it most likely does, the type assertion
  at line 255 panics. The model does not promise this failure: its privileged
  search returns the row the query evidently means to find.
- `List` uses an integer ceiling in place of the float `math.Ceil`, so
  UserRepository.List and UserRepository.ListFixed require `PageSize >= 1`.
  `PageSize` 0 would divide by zero in floating point. A negative `PageSize`
  (PageID 1, PageSize -5, offset 0, say) makes PostgreSQL reject the negative
  `LIMIT`, which takes the same most-likely panic at line 116 as the negative
  offset under "## Findings"; the model gives neither case a result. Float rounding of very large counts and ids is not modelled. The int64
  wrap-around of the offset is modelled.
- Row order without `ORDER BY` is the order of the table sequence, which is one
  fixed scan order.
- UserRepository.PagesCover and UserRepository.ListPageIsBlock hold only if every
  `List` call sees the same row order. PostgreSQL does not promise that without
  `ORDER BY`, and the model's `Update` and `Delete` keep each row in place, where
  PostgreSQL writes a new row version that a later scan may meet elsewhere. So
  paging through the table across calls may skip or repeat rows that the lemmas
  show covered exactly once.
- `Create`: when the insert itself fails, the serial value it may have consumed is
  not modelled. The table's sequence is left as it was. The column defaults
  (`created_at`, `find_vision`, `add_friend`, `friends`) are a parameter, because
  the schema is not part of this model.
- The repository interface in `internal/user/storage.go` declares `FindByLogin`
  as returning a list and declares `AddFriend` and `DeleteFriend`. The model
  follows the implementation, which returns one user, and the friend
  operations have no implementation to model. `internal/user/handler.go` holds no
  logic.
- Errors that wrap several errors at once (`Unwrap() []error`) and error types
  with their own `Is` or `As` methods do not occur in this code and are not
  modelled.
- The "role" claim is written by `PayloadFunc` but never read. The gates re-read
  the role from the table.

=== FILE: apperror.dfy ===
/** The application error of `internal/apperror/error.go`: an error with a
    user-facing message, a developer message and a stable code, wrapping an
    optional cause. */
module AppErrors {
  import opened GoErrors

  /** `NewAppError(err, message, developerMessage, code)`: a fresh `*AppError`
      (allocation `ref`) holding its four arguments as given. Reading it back
      through `Error()` and `Unwrap()` returns the message and the cause. */
  function NewAppError(ref: nat, err: Option<Error>, message: string, developerMessage: string, code: string)
    : (a: Error)
    ensures a.AppError? && a.ref == ref
    ensures Text(a) == message && Unwrap(a) == err
    ensures a.developerMessage == developerMessage && a.code == code
  {
    AppError(ref, err, message, developerMessage, code)
  }

  /** The allocations of the two sentinels. */
  const NotFoundRef: nat := 1
  const NotAuthRef: nat := 2

  /** `ErrNotFound` and `ErrNotAuth`: sentinels without a cause. */
  const ErrNotFound: Error := NewAppError(NotFoundRef, None, "not found", "", "US-000001")
  const ErrNotAuth: Error := NewAppError(NotAuthRef, None, "not authorization", "", "US-000002")

  /** The two sentinels: their texts and codes, no cause, and no two alike. */
  lemma Sentinels()
    ensures Text(ErrNotFound) == "not found" && ErrNotFound.code == "US-000001"
    ensures Text(ErrNotAuth) == "not authorization" && ErrNotAuth.code == "US-000002"
    ensures Unwrap(ErrNotFound).None? && Unwrap(ErrNotAuth).None?
    ensures ErrNotFound.developerMessage == "" && ErrNotAuth.developerMessage == ""
    ensures ErrNotFound != ErrNotAuth
    ensures !Is(ErrNotFound, ErrNotAuth) && !Is(ErrNotAuth, ErrNotFound)
  {
  }

  /** `systemError(err)`: an internal-error `*AppError` (allocation `ref`) that
      wraps `err` and carries its text as the developer message. */
  function SystemError(ref: nat, err: Error): (a: Error)
    ensures a.AppError? && Unwrap(a) == Some(err)
    ensures Text(a) == "internal system error"
    ensures a.developerMessage == Text(err) && a.code == "SE-000001"
    ensures Is(a, err)
  {
    NewAppError(ref, Some(err), "internal system error", Text(err), "SE-000001")
  }
}

=== FILE: apperror_middleware.dfy ===
/** The error wrapper of `internal/apperror/middleware.go`: it runs a handler
    and turns the error it returns into an HTTP status and a JSON body. */
module ErrorMiddleware {
  import opened GoErrors
  import opened AppErrors

  /** What the wrapper does with the request: nothing, a JSON body with a
      status, or a panic. */
  datatype Response = NoResponse | Json(status: nat, body: Error) | Panic(message: string)

  /** `Middleware(handler)` applied to the handler's result `result`; `sysRef` is
      the allocation a `systemError` would get. */
  function Middleware(result: Option<Error>, sysRef: nat): (r: Response)
    ensures r.NoResponse? <==> result.None?
    ensures r.Json? ==> r.status in {404, 401, 400, 418}
  {
    match result
    case None => NoResponse
    case Some(err) =>
      if AsAppError(err).Some? then
        if Is(err, ErrNotFound) then Json(404, ErrNotFound)
        else if Is(err, ErrNotAuth) then Json(401, ErrNotAuth)
        else if err.AppError? then Json(400, err)
        else Panic("can't convert err to app error")
      else Json(418, SystemError(sysRef, err))
  }

  /** The wrapper's classification stated over the unwrap chain of the error:
      - the not-found sentinel anywhere in the chain gives 404 with that
        sentinel, before anything else is looked at;
      - otherwise the not-authorised sentinel anywhere gives 401;
      - otherwise an error that is itself an `*AppError` is sent with 400;
      - otherwise an `*AppError` deeper in the chain makes it panic;
      - and a chain with no `*AppError` at all gives 418 with a `systemError`
        wrapping the error. */
  lemma {:induction false} MiddlewareClassifies(err: Error, sysRef: nat)
    ensures var r := Middleware(Some(err), sysRef);
      && (r == Json(404, ErrNotFound) <==> ErrNotFound in Chain(err))
      && (r == Json(401, ErrNotAuth) <==> ErrNotFound !in Chain(err) && ErrNotAuth in Chain(err))
      && (r == Json(400, err) <==>
            ErrNotFound !in Chain(err) && ErrNotAuth !in Chain(err) && err.AppError?)
      && (r.Panic? <==>
            ErrNotFound !in Chain(err) && ErrNotAuth !in Chain(err) && !err.AppError? && HasAppError(err))
      && (r.Json? && r.status == 418 <==> !HasAppError(err))
      && (r.Json? && r.status == 418 ==> r.body == SystemError(sysRef, err))
  {
    IsIffInChain(err, ErrNotFound);
    IsIffInChain(err, ErrNotAuth);
    AsAppErrorFindsFirst(err);
    if Is(err, ErrNotFound) {
      IsAppErrorImpliesAs(err, ErrNotFound);
    } else if Is(err, ErrNotAuth) {
      IsAppErrorImpliesAs(err, ErrNotAuth);
    } else if err.AppError? {
      assert ErrNotFound != err;
    }
  }

  /** A handler that returns the not-found sentinel wrapped in another
      `*AppError` still answers 404, and wrapped only in a plain error still
      answers 404 rather than panicking. */
  lemma WrappedSentinelIsNotFound(ref: nat, text: string, sysRef: nat)
    ensures Middleware(Some(NewAppError(ref, Some(ErrNotFound), text, "", "")), sysRef) == Json(404, ErrNotFound)
    ensures Middleware(Some(Basic(ref, text, Some(ErrNotFound))), sysRef) == Json(404, ErrNotFound)
  {
    var a := NewAppError(ref, Some(ErrNotFound), text, "", "");
    var b := Basic(ref, text, Some(ErrNotFound));
    assert Chain(a) == [a] + Chain(ErrNotFound);
    assert Chain(b) == [b] + Chain(ErrNotFound);
    MiddlewareClassifies(a, sysRef);
    MiddlewareClassifies(b, sysRef);
  }

  /** A plain error that wraps some other `*AppError`, one with neither sentinel
      anywhere in its own chain, makes the wrapper panic. */
  lemma WrappedAppErrorPanics(ref: nat, text: string, inner: Error, sysRef: nat)
    requires inner.AppError? && ErrNotFound !in Chain(inner) && ErrNotAuth !in Chain(inner)
    ensures Middleware(Some(Basic(ref, text, Some(inner))), sysRef).Panic?
  {
    var b := Basic(ref, text, Some(inner));
    assert Chain(b) == [b] + Chain(inner);
    assert Chain(b)[1].AppError?;
    MiddlewareClassifies(b, sysRef);
  }
}

=== FILE: banned_check.dfy ===
/** The banned-pair check of
    `pkg/service/checkingForBannedUser/checkingForBannedUser.go`: a lookup of the
    ordered pair in the `users_banned` table. Its boolean means "a ban row was
    found" (true = banned), and any failure, including finding no row, comes back
    as `false` with the error. */
module BannedCheck {
  import opened GoErrors
  import opened Query
  import opened UserModel

  /** A row of `users_banned`: `userId` has banned `bannedUserId`. */
  datatype BanRow = BanRow(id: nat, createdAt: Time, deletedAt: Option<Time>, userId: nat, bannedUserId: nat)

  /** The zero `bannedUser{}` the destination starts as. */
  const ZeroBanRow: BanRow := BanRow(0, 0, None, 0, 0)

  /** The rows for the ordered pair: `WHERE user_id = $1 AND banned_user_id = $2`,
      with no `deleted_at` filter. */
  function PairRows(bans: seq<BanRow>, userId: nat, banUserId: nat): (s: seq<BanRow>)
    ensures forall b :: b in s <==> b in bans && b.userId == userId && b.bannedUserId == banUserId
  {
    Where(bans, (b: BanRow) => b.userId == userId && b.bannedUserId == banUserId)
  }

  /** `CheckingBannedUser(userID, banUserID)`, returning `(banned, err)`. `fault`
      is the failure of the transaction or of the query, if any. */
  function CheckingBannedUser(bans: seq<BanRow>, fault: Option<Error>, userId: nat, banUserId: nat)
    : (r: (bool, Option<Error>))
    ensures !(r.0 && r.1.Some?)
    ensures fault.Some? ==> r == (false, fault)
    ensures fault.None? ==> (r.0 <==> |PairRows(bans, userId, banUserId)| == 1 && PairRows(bans, userId, banUserId)[0].id != 0)
    ensures fault.None? ==> (r.1.None? <==> |PairRows(bans, userId, banUserId)| == 1)
    ensures fault.None? && |PairRows(bans, userId, banUserId)| == 0 ==> r == (false, Some(ErrNoRows))
  {
    if fault.Some? then (false, fault)
    else
      var got := GetOne(PairRows(bans, userId, banUserId), ZeroBanRow);
      if got.err.Some? then (false, got.err)
      else if got.value.id == 0 then (false, None)
      else (true, None)
  }

  /** The only ban row of the pair decides: a non-zero id is "banned", the zero
      id is "not banned", and a soft-deleted row counts like any other. */
  lemma SingleRowDecides(bans: seq<BanRow>, b: BanRow)
    requires PairRows(bans, b.userId, b.bannedUserId) == [b]
    ensures CheckingBannedUser(bans, None, b.userId, b.bannedUserId) == (b.id != 0, None)
  {
  }

  /** A pair without any row is not reported as "not banned": the check fails
      with the no-rows error. */
  lemma NoRowIsAnError(bans: seq<BanRow>, userId: nat, banUserId: nat)
    requires forall i :: 0 <= i < |bans| ==> !(bans[i].userId == userId && bans[i].bannedUserId == banUserId)
    ensures CheckingBannedUser(bans, None, userId, banUserId) == (false, Some(ErrNoRows))
  {
    WhereNone(bans, (b: BanRow) => b.userId == userId && b.bannedUserId == banUserId);
  }

  /** The pair is ordered: a ban of `b` by `a` is not a ban of `a` by `b`. */
  lemma PairIsOrdered(a: nat, b: nat, now: Time)
    requires a != b
    ensures var bans := [BanRow(1, now, None, a, b)];
      CheckingBannedUser(bans, None, a, b) == (true, None) &&
      CheckingBannedUser(bans, None, b, a) == (false, Some(ErrNoRows))
  {
    var bans := [BanRow(1, now, None, a, b)];
    assert PairRows(bans, a, b) == [bans[0]];
    NoRowIsAnError(bans, b, a);
  }

  /** A soft-deleted ban row still reads as "banned". */
  lemma DeletedBanStillBans(a: nat, b: nat, created: Time, deleted: Time)
    ensures CheckingBannedUser([BanRow(1, created, Some(deleted), a, b)], None, a, b) == (true, None)
  {
    var bans := [BanRow(1, created, Some(deleted), a, b)];
    assert PairRows(bans, a, b) == [bans[0]];
  }
}

=== FILE: go_errors.dfy ===
/** Go's `error` values and the parts of the standard `errors` package the
    application relies on: single-link unwrap chains, `errors.Is` (a link that IS
    the target) and `errors.As` for the `*AppError` pointer type (the first link of
    that dynamic type). */
module GoErrors {

  /** A nilable value: Go's `nil` or a present value. */
  datatype Option<+T> = None | Some(value: T)

  /** A non-nil Go error. `ref` stands for the address of the allocation: Go
      compares pointer-typed errors by address, so two errors built by separate
      calls are different errors even when their texts agree.
      - `AppError` is the application's `*apperror.AppError` (its `Err` field is
        the wrapped error);
      - `Basic` is every other error: `errors.New` (no wrapped error) or a
        `fmt.Errorf` wrapper (wrapping one error). */
  datatype Error =
    | AppError(ref: nat, err: Option<Error>, message: string, developerMessage: string, code: string)
    | Basic(ref: nat, text: string, wrapped: Option<Error>)

  /** `errors.Unwrap(e)`: the next link of the chain, if any. */
  function Unwrap(e: Error): Option<Error>
  {
    match e
    case AppError(_, err, _, _, _) => err
    case Basic(_, _, wrapped) => wrapped
  }

  /** `e.Error()`. For an `AppError` it is the `Message` field. */
  function Text(e: Error): string
  {
    match e
    case AppError(_, _, message, _, _) => message
    case Basic(_, text, _) => text
  }

  /** The unwrap chain of `e`: `e`, `Unwrap(e)`, `Unwrap(Unwrap(e))`, ... */
  function Chain(e: Error): (c: seq<Error>)
    ensures |c| >= 1 && c[0] == e
    ensures forall i :: 0 <= i < |c| - 1 ==> Unwrap(c[i]) == Some(c[i + 1])
    ensures Unwrap(c[|c| - 1]).None?
  {
    match e
    case AppError(_, Some(n), _, _, _) => [e] + Chain(n)
    case Basic(_, _, Some(n)) => [e] + Chain(n)
    case _ => [e]
  }

  /** `errors.Is(err, target)` for errors without an `Is` method: walk the chain
      and compare each link with `target` by identity. */
  predicate Is(err: Error, target: Error)
  {
    err == target ||
    match err
    case AppError(_, Some(n), _, _, _) => Is(n, target)
    case Basic(_, _, Some(n)) => Is(n, target)
    case _ => false
  }

  /** `errors.As(err, &appErr)` with `appErr *AppError`: the first link of the
      chain whose dynamic type is `*AppError`. */
  function AsAppError(err: Error): Option<Error>
  {
    if err.AppError? then Some(err)
    else match err
      case Basic(_, _, Some(n)) => AsAppError(n)
      case _ => None
  }

  /** Some link of the chain is an `*AppError`. */
  predicate HasAppError(err: Error)
  {
    exists i :: 0 <= i < |Chain(err)| && Chain(err)[i].AppError?
  }

  /** `errors.Is` finds `target` exactly when `target` is a link of the chain. */
  lemma {:induction false} IsIffInChain(err: Error, target: Error)
    ensures Is(err, target) <==> target in Chain(err)
  {
    match err
    case AppError(_, Some(n), _, _, _) =>
      IsIffInChain(n, target);
    case Basic(_, _, Some(n)) =>
      IsIffInChain(n, target);
    case _ =>
  }

  /** `errors.As` succeeds exactly when some link is an `*AppError`, and it
      yields the first such link. */
  lemma {:induction false} AsAppErrorFindsFirst(err: Error)
    ensures AsAppError(err).Some? <==> HasAppError(err)
    ensures AsAppError(err).Some? ==>
      exists i :: 0 <= i < |Chain(err)| && Chain(err)[i] == AsAppError(err).value
        && Chain(err)[i].AppError?
        && forall j :: 0 <= j < i ==> !Chain(err)[j].AppError?
  {
    match err
    case AppError(_, _, _, _, _) =>
      assert Chain(err)[0].AppError?;
    case Basic(_, _, Some(n)) =>
      AsAppErrorFindsFirst(n);
      assert Chain(err) == [err] + Chain(n);
      if AsAppError(n).Some? {
        var i :| 0 <= i < |Chain(n)| && Chain(n)[i] == AsAppError(n).value
          && Chain(n)[i].AppError?
          && forall j :: 0 <= j < i ==> !Chain(n)[j].AppError?;
        assert Chain(err)[i + 1] == Chain(n)[i];
        forall j | 0 <= j < i + 1
          ensures !Chain(err)[j].AppError?
        {
          if j > 0 {
            assert Chain(err)[j] == Chain(n)[j - 1];
          }
        }
      } else {
        forall i | 0 <= i < |Chain(err)|
          ensures !Chain(err)[i].AppError?
        {
          if i > 0 {
            assert Chain(err)[i] == Chain(n)[i - 1];
          }
        }
      }
    case Basic(_, _, None) =>
      assert Chain(err) == [err];
  }

  /** Any `*AppError` that `errors.Is` finds also makes `errors.As` succeed. */
  lemma IsAppErrorImpliesAs(err: Error, target: Error)
    requires target.AppError?
    requires Is(err, target)
    ensures AsAppError(err).Some?
  {
    IsIffInChain(err, target);
    var i :| 0 <= i < |Chain(err)| && Chain(err)[i] == target;
    AsAppErrorFindsFirst(err);
  }

  /** The `(T, error)` pair a Go function returns. */
  datatype Ret<T> = Ret(value: T, err: Option<Error>)

  /** The outcome of a Go call that may panic: it either returns a value
      together with an error (`nil` or not), or it panics. */
  datatype Outcome<T> = Returned(value: T, err: Option<Error>) | Panicked(reason: string)
}

=== FILE: query.dfy ===
/** The two ways the application fetches rows: `pgxscan.Select` (every row the
    query produces, in scan order) and `pgxscan.Get` (exactly one row, else an
    error). A table is a sequence of rows in scan order; a `WHERE` clause is a
    predicate on a row. None of the queries has an `ORDER BY`, so scan order is
    whatever order the table sequence holds. */
module Query {
  import opened GoErrors

  /** The rows of `rows` that satisfy `p`, in scan order. */
  function Where<T(!new)>(rows: seq<T>, p: T -> bool): (s: seq<T>)
    ensures |s| <= |rows|
    ensures forall x :: x in s <==> x in rows && p(x)
  {
    if |rows| == 0 then []
    else if p(rows[0]) then [rows[0]] + Where(rows[1..], p)
    else Where(rows[1..], p)
  }

  /** The first row of a `WHERE` result is the first row of the table, in scan
      order, that satisfies the predicate. */
  lemma {:induction false} WhereFirst<T(!new)>(rows: seq<T>, p: T -> bool)
    requires |Where(rows, p)| > 0
    ensures exists i :: (0 <= i < |rows| && rows[i] == Where(rows, p)[0] && p(rows[i])
      && forall j :: 0 <= j < i ==> !p(rows[j]))
  {
    if p(rows[0]) {
      assert rows[0] == Where(rows, p)[0];
    } else {
      WhereFirst(rows[1..], p);
      var i :| 0 <= i < |rows[1..]| && rows[1..][i] == Where(rows[1..], p)[0] && p(rows[1..][i])
        && forall j :: 0 <= j < i ==> !p(rows[1..][j]);
      assert rows[i + 1] == rows[1..][i];
      forall j | 0 <= j < i + 1
        ensures !p(rows[j])
      {
        if j > 0 {
          assert rows[j] == rows[1..][j - 1];
        }
      }
    }
  }

  /** Predicates that agree on every row select the same rows. */
  lemma {:induction false} WhereSame<T(!new)>(rows: seq<T>, p: T -> bool, q: T -> bool)
    requires forall i :: 0 <= i < |rows| ==> p(rows[i]) == q(rows[i])
    ensures Where(rows, p) == Where(rows, q)
  {
    if |rows| > 0 {
      assert forall i :: 0 <= i < |rows[1..]| ==> rows[1..][i] == rows[i + 1];
      WhereSame(rows[1..], p, q);
    }
  }

  /** No row satisfies the predicate: the result is empty. */
  lemma {:induction false} WhereNone<T(!new)>(rows: seq<T>, p: T -> bool)
    requires forall i :: 0 <= i < |rows| ==> !p(rows[i])
    ensures Where(rows, p) == []
  {
    if |rows| > 0 {
      WhereNone(rows[1..], p);
    }
  }

  /** A `WHERE` result has at most one row when no two rows satisfying the
      predicate are equal under `key` and the predicate pins the key down. */
  lemma {:induction false} WhereAtMostOne<T(!new)>(rows: seq<T>, p: T -> bool, key: T -> nat, k: nat)
    requires forall i, j :: 0 <= i < j < |rows| ==> key(rows[i]) != key(rows[j])
    requires forall x :: p(x) ==> key(x) == k
    ensures |Where(rows, p)| <= 1
  {
    if |rows| > 0 {
      WhereAtMostOne(rows[1..], p, key, k);
      if p(rows[0]) {
        forall i | 0 <= i < |rows[1..]|
          ensures !p(rows[1..][i])
        {
          assert rows[1..][i] == rows[i + 1];
        }
        WhereNone(rows[1..], p);
      }
    }
  }

  /** The error `pgxscan.Get` reports when the query produced no row, with the
      text of the scan library's not-found error; only its identity matters to
      the model. */
  const ErrNoRows: Error := Basic(3, "scany: no row was found", None)

  /** The error `pgxscan.Get` reports when the query produced several rows; the
      row count the library appends to the text is not modelled. */
  const ErrTooManyRows: Error := Basic(4, "scany: expected 1 row", None)

  /** `pgxscan.Get` into a destination holding `zero`: the single row, or the zero
      value with an error when there is not exactly one row. */
  function GetOne<T>(rows: seq<T>, zero: T): (r: Ret<T>)
    ensures r.err.None? <==> |rows| == 1
    ensures r.err.None? ==> r.value == rows[0]
    ensures r.err.Some? ==> r.value == zero
    ensures |rows| == 0 ==> r.err == Some(ErrNoRows)
    ensures |rows| > 1 ==> r.err == Some(ErrTooManyRows)
  {
    if |rows| == 1 then Ret(rows[0], None)
    else if |rows| == 0 then Ret(zero, Some(ErrNoRows))
    else Ret(zero, Some(ErrTooManyRows))
  }
}

=== FILE: roles.dfy ===
/** The three privilege tiers. They are plain unsigned numbers: a SMALLER number
    means MORE privilege, so "at least Admin" is written `role <= Admin`. */
module Roles {

  const Root: nat := 1
  const Admin: nat := 2
  const User: nat := 3

  /** Root and Admin, and also the unused role 0, pass an `role <= Admin` test. */
  predicate Privileged(role: nat)
  {
    role <= Admin
  }

  /** The ordinals, and their order: Root is above Admin, which is above User;
      exactly Root and Admin among the three are privileged. */
  lemma RoleOrdinals()
    ensures Root == 1 && Admin == 2 && User == 3
    ensures Root < Admin < User
    ensures Privileged(Root) && Privileged(Admin) && !Privileged(User)
  {
  }
}

=== FILE: user_middleware.dfy ===
/** The identity and role gates of `internal/middleware/userMiddleware.go`: the
    callback decisions the JWT middleware is configured with, the login check,
    and the Root and Admin gates. Token signing, expiry and refresh belong to the
    JWT library and are not modelled; claims are given as already extracted. */
module UserMiddleware {
  import opened GoErrors
  import opened Query
  import opened UserModel
  import opened UsersTable
  import Roles

  /** The claim keys of the identity and of the role. */
  const IdentityKey: string := "id"
  const RoleKey: string := "role"

  /** A claim value: a Go `uint` as `PayloadFunc` stores it, a JSON number as
      decoding a token yields it (a `float64`, here always a whole non-negative
      number), or a boolean. */
  datatype Claim = Uint(n: nat) | Float(f: nat) | Bool(b: bool)

  type Claims = map<string, Claim>

  /** The dynamic content of an `interface{}`: a `Test` value, a `*Test`
      pointer, a string, or `nil`. */
  datatype Value = TestValue(test: User) | TestPointer(test: User) | Str(s: string) | Nil

  // ---------------------------------------------------------------- claims

  /** `PayloadFunc`: the claims put into a token for the value `Authenticator`
      returned. Only a `Test` VALUE yields identity claims. */
  function PayloadFunc(data: Value): (c: Claims)
    ensures data.TestValue? <==> IdentityKey in c
    ensures data.TestValue? ==>
      c.Keys == {IdentityKey, RoleKey} &&
      c[IdentityKey] == Uint(data.test.id) && c[RoleKey] == Uint(data.test.userRole)
    ensures !data.TestValue? ==> c.Keys == {"error"} && c["error"] == Bool(true)
  {
    match data
    case TestValue(v) => map[IdentityKey := Uint(v.id), RoleKey := Uint(v.userRole)]
    case _ => map["error" := Bool(true)]
  }

  /** `IdentityHandler`: a `*Test` whose only non-zero field is the id, taken from
      the "id" claim when that claim holds a `uint`, else 0. */
  function IdentityHandler(claims: Claims): (v: Value)
    ensures v.TestPointer?
    ensures v.test.(id := 0) == ZeroUser
    ensures v.test.id != 0 ==> IdentityKey in claims && claims[IdentityKey] == Uint(v.test.id)
    ensures IdentityKey in claims && claims[IdentityKey].Uint? ==> v.test.id == claims[IdentityKey].n
  {
    if IdentityKey in claims && claims[IdentityKey].Uint?
    then TestPointer(ZeroUser.(id := claims[IdentityKey].n))
    else TestPointer(ZeroUser)
  }

  /** `Authorizator`: admit exactly the identities that are `*Test` pointers. */
  function Authorizator(data: Value): (ok: bool)
    ensures ok <==> exists u :: data == TestPointer(u)
  {
    data.TestPointer?
  }

  /** Every identity `IdentityHandler` builds is admitted, whatever the claims. */
  lemma AuthorizatorAdmitsEveryIdentity(claims: Claims)
    ensures Authorizator(IdentityHandler(claims))
    ensures Authorizator(IdentityHandlerFixed(claims))
    ensures !Authorizator(TestValue(IdentityHandler(claims).test))
  {
    assert IdentityHandler(claims) == TestPointer(IdentityHandler(claims).test);
    assert IdentityHandlerFixed(claims) == TestPointer(IdentityHandlerFixed(claims).test);
  }

  /** A `*Test`, the kind of value `IdentityHandler` returns, gets only the error
      claim from `PayloadFunc`, which accepts `Test` values alone. The JWT library
      only ever hands `PayloadFunc` the `Test` value `Authenticator` returns, so
      this input does not arise in the running program; the lemma records that
      the two callbacks do not agree on the type of the identity. */
  lemma PayloadRejectsPointer(u: User)
    ensures PayloadFunc(TestPointer(u)) == map["error" := Bool(true)]
    ensures IdentityKey !in PayloadFunc(IdentityHandler(map[IdentityKey := Uint(u.id)]))
  {
  }

  /** The claims as they come back out of a signed token: the JSON decoder turns
      every number into a `float64`. */
  function DecodedClaims(c: Claims): (d: Claims)
    ensures d.Keys == c.Keys
    ensures forall k :: k in c ==> (c[k].Uint? ==> d[k] == Float(c[k].n)) && (!c[k].Uint? ==> d[k] == c[k])
  {
    map k | k in c :: if c[k].Uint? then Float(c[k].n) else c[k]
  }

  /** As written, `IdentityHandler` never recovers the id of a logged-in user:
      the "id" claim of a decoded token is a `float64`, never a `uint`, so every
      identity carries id 0. */
  lemma IdentityHandlerLosesId(u: User)
    ensures IdentityHandler(DecodedClaims(PayloadFunc(TestValue(u)))) == TestPointer(ZeroUser)
  {
    var d := DecodedClaims(PayloadFunc(TestValue(u)));
    assert d[IdentityKey] == Float(u.id);
  }

  /** `IdentityHandler` reading the "id" claim as a `float64`, as `RootMiddleware`
      and `AdminMiddleware` do. */
  function IdentityHandlerFixed(claims: Claims): (v: Value)
    ensures v.TestPointer?
    ensures v.test.(id := 0) == ZeroUser
    ensures v.test.id != 0 ==> IdentityKey in claims && claims[IdentityKey] == Float(v.test.id)
    ensures IdentityKey in claims && claims[IdentityKey].Float? ==> v.test.id == claims[IdentityKey].f
  {
    if IdentityKey in claims && claims[IdentityKey].Float?
    then TestPointer(ZeroUser.(id := claims[IdentityKey].f))
    else TestPointer(ZeroUser)
  }

  /** With the corrected reading, the identity of a request is the id of the
      user the token was issued for. */
  lemma IdentityRoundTrip(u: User)
    ensures IdentityHandlerFixed(DecodedClaims(PayloadFunc(TestValue(u)))) == TestPointer(ZeroUser.(id := u.id))
  {
    var d := DecodedClaims(PayloadFunc(TestValue(u)));
    assert d[IdentityKey] == Float(u.id);
  }

  // ---------------------------------------------------------------- login

  /** The bound login form; `None` when the request body could not be bound. */
  datatype LoginForm = LoginForm(login: string, password: string)

  /** The JWT library's error for a login form that fails to bind. */
  const ErrMissingLoginValues: Error := Basic(5, "missing Username or Password", None)

  /** The JWT library's error for a password that does not match. */
  const ErrFailedAuthentication: Error := Basic(6, "incorrect Username or Password", None)

  /** Binding succeeds when the body parsed and both required fields are
      non-empty. */
  predicate Bound(form: Option<LoginForm>)
  {
    form.Some? && form.value.login != "" && form.value.password != ""
  }

  /** `Authenticator`: bind the form, `SELECT * FROM users WHERE login = $1` (no
      `deleted_at` filter), then check the password against the FIRST row with
      bcrypt, here the opaque `verify(hash, password)`. An empty result is
      indexed anyway, which panics. `fault` is the store failure, if any. */
  function Authenticator(t: Table, fault: Option<Error>, form: Option<LoginForm>,
                         verify: (string, string) -> bool): (r: Outcome<Value>)
    ensures !Bound(form) ==> r == Returned(Str(""), Some(ErrMissingLoginValues))
    ensures Bound(form) && fault.Some? ==> r == Returned(Nil, fault)
    ensures Bound(form) && fault.None? ==>
      (r.Panicked? <==> forall i :: 0 <= i < |t.rows| ==> t.rows[i].login != form.value.login)
    ensures r.Returned? && r.err.None? ==>
      && Bound(form) && r.value.TestValue?
      && verify(r.value.test.password, form.value.password)
      && exists i :: (0 <= i < |t.rows| && t.rows[i] == r.value.test && t.rows[i].login == form.value.login
           && forall j :: 0 <= j < i ==> t.rows[j].login != form.value.login)
    ensures r.Returned? && r.err == Some(ErrFailedAuthentication) && fault.None? ==>
      r.value == Str("") &&
      exists i :: (0 <= i < |t.rows| && t.rows[i].login == form.value.login
        && !verify(t.rows[i].password, form.value.password)
        && forall j :: 0 <= j < i ==> t.rows[j].login != form.value.login)
    ensures Bound(form) && fault.None? && r.Returned? ==> r.err.None? || r.err == Some(ErrFailedAuthentication)
    ensures forall i :: (Bound(form) && fault.None? && 0 <= i < |t.rows| && t.rows[i].login == form.value.login
        && (forall j :: 0 <= j < i ==> t.rows[j].login != form.value.login)) ==>
      r == if verify(t.rows[i].password, form.value.password)
           then Returned(TestValue(t.rows[i]), None)
           else Returned(Str(""), Some(ErrFailedAuthentication))
  {
    if !Bound(form) then Returned(Str(""), Some(ErrMissingLoginValues))
    else if fault.Some? then Returned(Nil, fault)
    else
      var p := (u: User) => u.login == form.value.login;
      var rows := Where(t.rows, p);
      if |rows| == 0 then
        assert forall i :: 0 <= i < |t.rows| ==> t.rows[i] in t.rows;
        Panicked("index out of range [0] with length 0")
      else
        WhereFirst(t.rows, p);
        if !verify(rows[0].password, form.value.password) then
          Returned(Str(""), Some(ErrFailedAuthentication))
        else
          Returned(TestValue(rows[0]), None)
  }

  /** A successful login issues a token whose claims are the id and the role of
      the first row with that login. */
  lemma LoginClaims(t: Table, form: Option<LoginForm>, verify: (string, string) -> bool)
    requires Authenticator(t, None, form, verify).Returned?
    requires Authenticator(t, None, form, verify).err.None?
    ensures var u := Authenticator(t, None, form, verify).value.test;
      PayloadFunc(Authenticator(t, None, form, verify).value) ==
        map[IdentityKey := Uint(u.id), RoleKey := Uint(u.userRole)]
      && u in t.rows && u.login == form.value.login
      && exists i :: 0 <= i < |t.rows| && t.rows[i] == u
           && forall j :: 0 <= j < i ==> t.rows[j].login != form.value.login
  {
  }

  /** A soft-deleted account still logs in. */
  lemma AuthenticatorAdmitsDeleted(u: User, pw: string, verify: (string, string) -> bool)
    requires u.login != "" && pw != "" && u.deletedAt.Some?
    requires verify(u.password, pw)
    ensures Authenticator(Table([u], u.id + 1), None, Some(LoginForm(u.login, pw)), verify)
      == Returned(TestValue(u), None)
  {
  }

  // ---------------------------------------------------------------- gates

  /** `findUser`: `SELECT * FROM users WHERE id = $1` (no `deleted_at` filter) and
      the first row; an empty result is indexed anyway, which panics. */
  function FindUser(t: Table, fault: Option<Error>, id: nat): (r: Outcome<User>)
    ensures fault.Some? ==> r == Returned(ZeroUser, fault)
    ensures fault.None? ==> (r.Panicked? <==> Lookup(t, id).None?)
    ensures fault.None? && Lookup(t, id).Some? ==> r == Returned(Lookup(t, id).value, None)
  {
    if fault.Some? then Returned(ZeroUser, fault)
    else
      var rows := Where(t.rows, (u: User) => u.id == id);
      if |rows| == 0 then Panicked("index out of range [0] with length 0")
      else Returned(rows[0], None)
  }

  /** What a gate does with the request. */
  datatype Decision = Next | Abort(status: nat, message: string) | Panic(reason: string)

  /** The decision both gates are specified to take: the "id" claim must be a
      `float64` (a failed type assertion panics); a failed lookup aborts with 500;
      a role other than Root aborts with 403; Root proceeds. */
  function RootOnly(claims: Claims, t: Table, fault: Option<Error>): Decision
  {
    if IdentityKey !in claims || !claims[IdentityKey].Float? then Panic("interface conversion")
    else if fault.Some? then Abort(500, "server error")
    else match Lookup(t, claims[IdentityKey].f)
      case None => Panic("index out of range [0] with length 0")
      case Some(u) => if u.userRole != Roles.Root then Abort(403, "Insufficient rights") else Next
  }

  /** `RootMiddleware`: look the caller up by the id claim and admit Root only. */
  function RootMiddleware(claims: Claims, t: Table, fault: Option<Error>): (d: Decision)
    ensures d == RootOnly(claims, t, fault)
  {
    if IdentityKey !in claims || !claims[IdentityKey].Float? then Panic("interface conversion")
    else
      match FindUser(t, fault, claims[IdentityKey].f)
      case Panicked(reason) => Panic(reason)
      case Returned(user, err) =>
        if err.Some? then Abort(500, "server error")
        else if user.userRole != Roles.Root then Abort(403, "Insufficient rights")
        else Next
  }

  /** `AdminMiddleware`: the same code as `RootMiddleware`, so it too admits Root
      only. */
  function AdminMiddleware(claims: Claims, t: Table, fault: Option<Error>): (d: Decision)
    ensures d == RootOnly(claims, t, fault)
  {
    if IdentityKey !in claims || !claims[IdentityKey].Float? then Panic("interface conversion")
    else
      match FindUser(t, fault, claims[IdentityKey].f)
      case Panicked(reason) => Panic(reason)
      case Returned(user, err) =>
        if err.Some? then Abort(500, "server error")
        else if user.userRole != Roles.Root then Abort(403, "Insufficient rights")
        else Next
  }

  /** An Admin is turned away by the Admin gate exactly as by the Root gate, and
      a soft-deleted Root still passes both. */
  lemma AdminGateRejectsAdmin(t: Table, u: User)
    requires Valid(t) && u in t.rows
    ensures u.userRole == Roles.Admin ==>
      AdminMiddleware(map[IdentityKey := Float(u.id)], t, None) == Abort(403, "Insufficient rights")
    ensures u.userRole == Roles.Root ==>
      AdminMiddleware(map[IdentityKey := Float(u.id)], t, None) == Next &&
      RootMiddleware(map[IdentityKey := Float(u.id)], t, None) == Next
  {
    var i :| 0 <= i < |t.rows| && t.rows[i] == u;
    LookupUnique(t, i);
  }

  /** Claims freshly built by `PayloadFunc` (a `uint` id, before any token
      decoding) make both gates panic. The gates only ever see claims decoded
      from a token, whose id is a `float64`, so this input does not arise in the
      running program; the lemma records that the gates depend on that
      decoding. */
  lemma GatesPanicOnUintClaim(u: User, t: Table, fault: Option<Error>)
    ensures RootMiddleware(PayloadFunc(TestValue(u)), t, fault).Panic?
    ensures AdminMiddleware(PayloadFunc(TestValue(u)), t, fault).Panic?
  {
  }
}

=== FILE: user_model.dfy ===
/** The records of the `user` package: the `users` row, the paging filter and the
    paging result. */
module UserModel {
  import opened GoErrors

  /** An instant (`time.Time`), as an abstract tick count; 0 is Go's zero time. */
  type Time = nat

  /** Go's `int64`. */
  type Int64 = x: int | -0x8000_0000_0000_0000 <= x < 0x8000_0000_0000_0000

  /** Two's-complement wrap-around of an `int64` arithmetic result. */
  function WrapInt64(x: int): (r: Int64)
    ensures -0x8000_0000_0000_0000 <= x < 0x8000_0000_0000_0000 ==> r == x
  {
    if -0x8000_0000_0000_0000 <= x < 0x8000_0000_0000_0000 then x
    else (x + 0x8000_0000_0000_0000) % 0x1_0000_0000_0000_0000 - 0x8000_0000_0000_0000
  }

  /** A row of the `users` table. The middleware's `Test` struct has exactly the
      same fields and stands for the same row, so it is this type too. A `None`
      `deletedAt` is SQL `NULL`: the row is active. */
  datatype User = User(
    id: nat,
    createdAt: Time,
    deletedAt: Option<Time>,
    email: string,
    login: string,
    password: string,
    secretWord: string,
    findVision: bool,
    addFriend: bool,
    friends: seq<nat>,
    userRole: nat)

  /** The zero `User{}` that failing operations return. */
  const ZeroUser: User := User(0, 0, None, "", "", "", "", false, false, [], 0)

  /** The row has not been soft-deleted (`deleted_at IS NULL`). */
  predicate Active(u: User)
  {
    u.deletedAt.None?
  }

  /** The paging request of `List`. */
  datatype Filter = Filter(pageId: Int64, pageSize: Int64)

  /** The paging result of `List`. `records` is the `[]interface{}` the result
      carries; each element is one fetched page of rows. */
  datatype Pagination = Pagination(
    pageId: int,
    pageSize: int,
    totalRecords: int,
    totalCount: int,
    records: seq<seq<User>>)

  /** The zero `Pagination{}` that a failing `List` returns. */
  const ZeroPagination: Pagination := Pagination(0, 0, 0, 0, [])
}

=== FILE: user_repository.dfy ===
/** The PostgreSQL user repository (`internal/user/db/postgresql.go`) over an
    in-memory `users` table. Each operation receives the abstract behaviour of its
    transaction (`Tx`) or, for the read-only ones, the store fault, and returns
    Go's `(value, error)` pair; mutating operations also return the new table. */
module UserRepository {
  import opened GoErrors
  import opened Query
  import opened UserModel
  import opened UsersTable
  import Roles

  // ---------------------------------------------------------------- Create

  /** The values the table supplies for the columns the `INSERT` does not name. */
  datatype ColumnDefaults = ColumnDefaults(createdAt: Time, findVision: bool, addFriend: bool, friends: seq<nat>)

  /** The row `INSERT INTO users(email, login, password, secret_word, user_role)`
      stores for `u` under the serial value `id`. */
  function InsertedRow(u: User, id: nat, d: ColumnDefaults): User
  {
    User(id, d.createdAt, None, u.email, u.login, u.password, u.secretWord,
         d.findVision, d.addFriend, d.friends, u.userRole)
  }

  /** `Create`: insert the five named columns, read back the serial id, and return
      the INPUT record with that id filled in. The serial sequence advances even
      when the commit is lost, as PostgreSQL sequences are not transactional. */
  function Create(t: Table, tx: Tx, newUser: User, d: ColumnDefaults): (r: (Table, Ret<User>))
    ensures tx.fault.Some? ==> r.0 == t && r.1 == Ret(ZeroUser, tx.fault)
    ensures tx.fault.None? ==> r.1.err.None? && r.1.value == newUser.(id := t.nextId)
    ensures tx.fault.None? ==> r.0.nextId == t.nextId + 1
    ensures tx.fault.None? && tx.commits ==>
      r.0.rows == t.rows + [InsertedRow(newUser, r.1.value.id, d)]
    ensures !tx.commits ==> r.0.rows == t.rows
    ensures Valid(t) ==> Valid(r.0)
    ensures Valid(t) && tx.fault.None? ==> Lookup(t, r.1.value.id).None?
  {
    if tx.fault.Some? then (t, Ret(ZeroUser, tx.fault))
    else
      var id := t.nextId;
      var rows := if tx.commits then t.rows + [InsertedRow(newUser, id, d)] else t.rows;
      (Table(rows, id + 1), Ret(newUser.(id := id), None))
  }

  // ---------------------------------------------------------------- Read

  /** `Read`: `SELECT * FROM users WHERE id = $1 AND deleted_at IS NULL`, fetched
      with `pgxscan.Get`. */
  function Read(t: Table, fault: Option<Error>, id: nat): (r: Ret<User>)
    ensures fault.Some? ==> r == Ret(ZeroUser, fault)
    ensures r.err.Some? ==> r.value == ZeroUser
    ensures r.err.None? ==> r.value in t.rows && r.value.id == id && Active(r.value)
    ensures fault.None? && (forall i :: 0 <= i < |t.rows| ==> !(t.rows[i].id == id && Active(t.rows[i])))
      ==> r == Ret(ZeroUser, Some(ErrNoRows))
  {
    if fault.Some? then Ret(ZeroUser, fault)
    else
      var found := Where(t.rows, (u: User) => u.id == id && Active(u));
      assert |found| > 0 ==> found[0] in found;
      GetOne(found, ZeroUser)
  }

  /** In a valid table, `Read` finds a user exactly when the row with that id
      exists and is active, and then it returns that very row. */
  lemma ReadSeesActiveRow(t: Table, id: nat)
    requires Valid(t)
    ensures Read(t, None, id).err.None? <==> Lookup(t, id).Some? && Active(Lookup(t, id).value)
    ensures Read(t, None, id).err.None? ==> Read(t, None, id).value == Lookup(t, id).value
  {
    var p := (u: User) => u.id == id && Active(u);
    WhereAtMostOne(t.rows, p, (u: User) => u.id, id);
    var r := Read(t, None, id);
    if r.err.None? {
      var i :| 0 <= i < |t.rows| && t.rows[i] == r.value;
      LookupUnique(t, i);
    }
  }

  /** A committed `Create` is readable: `Read` of the id it returned yields the
      stored row, which carries the input's five inserted columns. */
  lemma ReadAfterCreate(t: Table, u: User, d: ColumnDefaults)
    requires Valid(t)
    ensures var (t', r) := Create(t, Tx(None, true), u, d);
      && Read(t', None, r.value.id) == Ret(InsertedRow(u, r.value.id, d), None)
      && Read(t', None, r.value.id).value.login == u.login
      && Read(t', None, r.value.id).value.email == u.email
      && Read(t', None, r.value.id).value.userRole == u.userRole
  {
    var (t', r) := Create(t, Tx(None, true), u, d);
    ReadSeesActiveRow(t', r.value.id);
    LookupUnique(t', |t.rows|);
  }

  // ---------------------------------------------------------------- Update

  /** `a` and `b` agree on every column except `find_vision` and `add_friend`. */
  predicate SameExceptFlags(a: User, b: User)
  {
    a.(findVision := b.findVision, addFriend := b.addFriend) == b
  }

  /** `Update`: `UPDATE users SET find_vision = $1, add_friend = $2 WHERE id = $3
      AND deleted_at IS NULL`, then return the INPUT record, whether or not a row
      matched. */
  function Update(t: Table, tx: Tx, u: User): (r: (Table, Ret<User>))
    ensures tx.fault.Some? ==> r == (t, Ret(ZeroUser, tx.fault))
    ensures tx.fault.None? ==> r.1 == Ret(u, None)
    ensures !tx.commits ==> r.0 == t
    ensures r.0.nextId == t.nextId && |r.0.rows| == |t.rows|
    ensures forall i :: 0 <= i < |t.rows| ==> SameExceptFlags(t.rows[i], r.0.rows[i])
    ensures forall i :: 0 <= i < |t.rows| && !(t.rows[i].id == u.id && Active(t.rows[i])) ==>
      r.0.rows[i] == t.rows[i]
    ensures tx.fault.None? && tx.commits ==>
      forall i :: 0 <= i < |t.rows| && t.rows[i].id == u.id && Active(t.rows[i]) ==>
        r.0.rows[i].findVision == u.findVision && r.0.rows[i].addFriend == u.addFriend
    ensures Valid(t) ==> Valid(r.0)
  {
    if tx.fault.Some? || !tx.commits then
      (t, if tx.fault.Some? then Ret(ZeroUser, tx.fault) else Ret(u, None))
    else
      var rows := seq(|t.rows|, i requires 0 <= i < |t.rows| =>
        if t.rows[i].id == u.id && Active(t.rows[i])
        then t.rows[i].(findVision := u.findVision, addFriend := u.addFriend)
        else t.rows[i]);
      (Table(rows, t.nextId), Ret(u, None))
  }

  /** After a committed `Update`, `Read` of that id returns the stored row with the
      two new flags and every other column as before; an id with no active row
      still reads as not found. */
  lemma ReadAfterUpdate(t: Table, u: User)
    requires Valid(t)
    ensures var t' := Update(t, Tx(None, true), u).0;
      && (Read(t', None, u.id).err.None? <==> Read(t, None, u.id).err.None?)
      && (Read(t, None, u.id).err.None? ==>
            Read(t', None, u.id).value ==
              Read(t, None, u.id).value.(findVision := u.findVision, addFriend := u.addFriend))
  {
    var t' := Update(t, Tx(None, true), u).0;
    ReadSeesActiveRow(t, u.id);
    ReadSeesActiveRow(t', u.id);
    if Lookup(t, u.id).Some? {
      var i :| 0 <= i < |t.rows| && t.rows[i] == Lookup(t, u.id).value;
      LookupUnique(t, i);
      LookupUnique(t', i);
    }
  }

  // ---------------------------------------------------------------- Delete

  /** `Delete`: `UPDATE users SET deleted_at = current_timestamp WHERE id = $1 AND
      deleted_at IS NULL`, stamped with `now`. The error is the store fault and
      nothing else: an unknown or already deleted id also yields `nil`. */
  function Delete(t: Table, tx: Tx, id: nat, now: Time): (r: (Table, Option<Error>))
    ensures r.1 == tx.fault
    ensures tx.fault.Some? || !tx.commits ==> r.0 == t
    ensures r.0.nextId == t.nextId && |r.0.rows| == |t.rows|
    ensures forall i :: 0 <= i < |t.rows| && !(t.rows[i].id == id && Active(t.rows[i])) ==>
      r.0.rows[i] == t.rows[i]
    ensures tx.fault.None? && tx.commits ==>
      forall i :: 0 <= i < |t.rows| && t.rows[i].id == id && Active(t.rows[i]) ==>
        r.0.rows[i] == t.rows[i].(deletedAt := Some(now))
    ensures (forall i :: 0 <= i < |t.rows| ==> !(t.rows[i].id == id && Active(t.rows[i]))) ==> r.0 == t
    ensures Valid(t) ==> Valid(r.0)
  {
    if tx.fault.Some? || !tx.commits then (t, tx.fault)
    else
      var rows := seq(|t.rows|, i requires 0 <= i < |t.rows| =>
        if t.rows[i].id == id && Active(t.rows[i])
        then t.rows[i].(deletedAt := Some(now))
        else t.rows[i]);
      (Table(rows, t.nextId), None)
  }

  /** After a committed `Delete(id)`, `Read(id)` no longer finds the user. */
  lemma ReadAfterDelete(t: Table, id: nat, now: Time)
    ensures Read(Delete(t, Tx(None, true), id, now).0, None, id) == Ret(ZeroUser, Some(ErrNoRows))
  {
    var t' := Delete(t, Tx(None, true), id, now).0;
    forall i | 0 <= i < |t'.rows|
      ensures !(t'.rows[i].id == id && Active(t'.rows[i]))
    {
    }
  }

  /** Deleting again, at any later instant, changes nothing: the first stamp
      stays. */
  lemma DeleteIdempotent(t: Table, id: nat, now: Time, later: Time)
    ensures var t' := Delete(t, Tx(None, true), id, now).0;
      Delete(t', Tx(None, true), id, later) == (t', None)
  {
    var t' := Delete(t, Tx(None, true), id, now).0;
    assert forall i :: 0 <= i < |t'.rows| ==> !(t'.rows[i].id == id && Active(t'.rows[i]));
  }

  // ---------------------------------------------------------------- FindByLogin

  /** The rows a caller of role `role` may find by login. Root and Admin
      (`role <= Admin`) search every row; any other role only rows with
      `find_vision = true`. Neither query filters on `deleted_at`. */
  predicate FindsRow(like: (string, string) -> bool, login: string, role: nat, u: User)
  {
    like(login, u.login) && (Roles.Privileged(role) || u.findVision)
  }

  /** `FindByLogin`: `SELECT * FROM users WHERE login LIKE $1 ...`, fetched with
      `pgxscan.Get`; `like(pattern, login)` stands for SQL `LIKE`. */
  function FindByLogin(t: Table, fault: Option<Error>, login: string, role: nat,
                       like: (string, string) -> bool): (r: Ret<User>)
    ensures fault.Some? ==> r == Ret(ZeroUser, fault)
    ensures r.err.Some? ==> r.value == ZeroUser
    ensures r.err.None? ==> r.value in t.rows && like(login, r.value.login)
    ensures r.err.None? && !Roles.Privileged(role) ==> r.value.findVision
    ensures fault.None? ==>
      (r.err.None? <==> |Where(t.rows, (u: User) => FindsRow(like, login, role, u))| == 1)
  {
    if fault.Some? then Ret(ZeroUser, fault)
    else
      var found := Where(t.rows, (u: User) => FindsRow(like, login, role, u));
      assert |found| > 0 ==> found[0] in found;
      GetOne(found, ZeroUser)
  }

  /** Every privileged role, including the unused role 0, searches like Root;
      every other role searches like User. */
  lemma FindByLoginByTier(t: Table, fault: Option<Error>, login: string, role: nat,
                          like: (string, string) -> bool)
    ensures Roles.Privileged(role) ==>
      FindByLogin(t, fault, login, role, like) == FindByLogin(t, fault, login, Roles.Root, like)
    ensures !Roles.Privileged(role) ==>
      FindByLogin(t, fault, login, role, like) == FindByLogin(t, fault, login, Roles.User, like)
  {
    var other := if Roles.Privileged(role) then Roles.Root else Roles.User;
    WhereSame(t.rows, (u: User) => FindsRow(like, login, role, u), (u: User) => FindsRow(like, login, other, u));
  }

  /** `FindByLogin` ignores soft deletion: after a committed `Delete` it reports
      the same outcome and finds the same id as before. */
  lemma FindByLoginSeesDeleted(t: Table, id: nat, now: Time, login: string, role: nat,
                               like: (string, string) -> bool)
    ensures var before := FindByLogin(t, None, login, role, like);
      var after := FindByLogin(Delete(t, Tx(None, true), id, now).0, None, login, role, like);
      after.err == before.err && after.value.id == before.value.id
  {
    var t' := Delete(t, Tx(None, true), id, now).0;
    var p := (u: User) => FindsRow(like, login, role, u);
    WhereCorresponds(t'.rows, p, t.rows, p);
  }

  // ---------------------------------------------------------------- List

  /** The `OFFSET` value `(PageID - 1) * PageSize`, computed in `int64`. */
  function Offset(f: Filter): Int64
  {
    WrapInt64(WrapInt64(f.pageId - 1) * f.pageSize)
  }

  /** `ceil(n / d)` for positive `d`, the integer form of `math.Ceil` over the
      quotient of the two counts. */
  function CeilDiv(n: nat, d: nat): (c: nat)
    requires d >= 1
    ensures IsCeiling(c, n, d)
  {
    (n + d - 1) / d
  }

  /** `c` is the least count of `d`-sized pages that holds `n` rows. */
  predicate IsCeiling(c: nat, n: nat, d: nat)
  {
    n <= c * d && (c == 0 || (c - 1) * d < n)
  }

  /** Rows `LIMIT limit OFFSET offset` of `s`. */
  function Page(s: seq<User>, offset: nat, limit: nat): (p: seq<User>)
    ensures |p| == if offset >= |s| then 0 else if offset + limit <= |s| then limit else |s| - offset
    ensures offset <= |s| ==> p == s[offset..offset + |p|]
  {
    if offset >= |s| then []
    else if offset + limit <= |s| then s[offset..offset + limit]
    else s[offset..]
  }

  /** The panic of `err.(*pgconn.PgError)` in `List`: `pgxscan.Select` wraps the
      PostgreSQL rejection of a negative `OFFSET`, so `errors.As` finds the
      `*pgconn.PgError` but the direct type assertion on the wrapper fails. The
      wrapper's dynamic type, which the runtime message names, is not modelled. */
  const NegativeOffsetPanic: string := "interface conversion: error is not *pgconn.PgError"

  /** The `Pagination` a successful `List` builds from the active rows. */
  function PageOf(active: seq<User>, f: Filter, offset: nat): (p: Pagination)
    requires f.pageSize >= 1
    ensures p.pageId == f.pageId && p.pageSize == f.pageSize
    ensures p.totalRecords == |active| && p.totalCount >= 0
    ensures IsCeiling(p.totalCount, p.totalRecords, f.pageSize)
    ensures |p.records| == 1 && |p.records[0]| <= f.pageSize
    ensures forall u :: u in p.records[0] ==> u in active
    ensures offset <= |active| ==> offset + |p.records[0]| <= |active|
    ensures offset <= |active| ==> p.records[0] == active[offset..offset + |p.records[0]|]
  {
    var page := Page(active, offset, f.pageSize);
    assert forall u :: u in page ==> u in active;
    Pagination(f.pageId, f.pageSize, |active|, CeilDiv(|active|, f.pageSize), [page])
  }

  /** `List`: one page of active rows (`LIMIT PageSize OFFSET (PageID-1)*PageSize`,
      no `ORDER BY`) and the count of all active rows. The page is carried as the
      single element of `records`. A negative offset is rejected by PostgreSQL;
      the model takes the rejection to reach the type assertion wrapped by the
      scan library, where it panics (`ListFixed` is the corrected reading). */
  function List(t: Table, fault: Option<Error>, f: Filter): (r: Outcome<Pagination>)
    requires f.pageSize >= 1
    ensures fault.Some? ==> r == Returned(ZeroPagination, fault)
    ensures fault.None? ==> (r.Panicked? <==> Offset(f) < 0)
    ensures fault.None? && r.Returned? ==> r.err.None?
    ensures r.Returned? && r.err.None? ==>
      && r.value.pageId == f.pageId && r.value.pageSize == f.pageSize
      && r.value.totalRecords == |ActiveRows(t)|
      && r.value.totalCount >= 0
      && IsCeiling(r.value.totalCount, r.value.totalRecords, f.pageSize)
      && |r.value.records| == 1
      && |r.value.records[0]| <= f.pageSize
      && (forall u :: u in r.value.records[0] ==> u in t.rows && Active(u))
      && (Offset(f) <= |ActiveRows(t)| ==> Offset(f) + |r.value.records[0]| <= |ActiveRows(t)|)
      && (Offset(f) <= |ActiveRows(t)| ==>
            r.value.records[0] == ActiveRows(t)[Offset(f)..Offset(f) + |r.value.records[0]|])
  {
    if fault.Some? then Returned(ZeroPagination, fault)
    else
      var offset := Offset(f);
      if offset < 0 then Panicked(NegativeOffsetPanic)
      else Returned(PageOf(ActiveRows(t), f, offset), None)
  }

  /** The error `List` evidently means to return for a negative `OFFSET`: the
      PostgreSQL rejection (SQLSTATE 2201X) formatted as at lines 117-124. */
  const ErrNegativeOffset: Error :=
    Basic(7, "SQL Error: OFFSET must not be negative, Detail: , Where: , Code: 2201X, SQLState: 2201X", None)

  /** `List` with the `*pgconn.PgError` taken from `errors.As` instead of a direct
      type assertion: a page number below 1 is answered with the formatted
      error, and every other input behaves as in `List`. */
  function ListFixed(t: Table, fault: Option<Error>, f: Filter): (r: Outcome<Pagination>)
    requires f.pageSize >= 1
    ensures !r.Panicked?
    ensures fault.None? ==> (r.err == Some(ErrNegativeOffset) <==> Offset(f) < 0)
    ensures fault.None? ==> (r.err.None? <==> Offset(f) >= 0)
    ensures r.err.Some? ==> r.value == ZeroPagination
    ensures List(t, fault, f).Returned? ==> r == List(t, fault, f)
  {
    var listed := List(t, fault, f);
    if listed.Panicked? then Returned(ZeroPagination, Some(ErrNegativeOffset)) else listed
  }

  /** As written, page 0 panics; with the corrected reading it is the formatted
      negative-offset error. */
  lemma PageZeroPanics(t: Table, size: Int64)
    requires size >= 1
    ensures List(t, None, Filter(0, size)).Panicked?
    ensures ListFixed(t, None, Filter(0, size)) == Returned(ZeroPagination, Some(ErrNegativeOffset))
  {
  }

  /** Without `int64` overflow the offset is the plain product, so a page number
      below 1 makes the offset negative and `List` panics. */
  lemma ListOffset(t: Table, f: Filter)
    requires f.pageSize >= 1
    requires -0x8000_0000_0000_0000 <= (f.pageId - 1) * f.pageSize < 0x8000_0000_0000_0000
    ensures Offset(f) == (f.pageId - 1) * f.pageSize
    ensures List(t, None, f).Returned? <==> f.pageId >= 1
  {
    var a := f.pageId - 1;
    ProductSign(a, f.pageSize);
    assert WrapInt64(a) == a;
    assert Offset(f) == WrapInt64(a * f.pageSize);
  }

  lemma ProductSign(a: int, b: int)
    requires b >= 1
    ensures a >= 0 <==> a * b >= 0
    ensures a < 0 ==> a * b <= a
  {
  }

  /** The first `n` pages of `size` rows of `s`, concatenated. */
  function Pages(s: seq<User>, size: nat, n: nat): seq<User>
  {
    if n == 0 then [] else Pages(s, size, n - 1) + Page(s, (n - 1) * size, size)
  }

  /** The first `n` pages are the first `k = n * size` rows, or all of them. */
  lemma {:induction false} PagesPrefix(s: seq<User>, size: nat, n: nat, k: nat)
    requires k == n * size
    ensures k <= |s| ==> Pages(s, size, n) == s[..k]
    ensures k > |s| ==> Pages(s, size, n) == s
  {
    if n > 0 {
      MulSucc(n, size);
      var a := k - size;
      PagesPrefix(s, size, n - 1, a);
      if a <= |s| {
        var p := Page(s, a, size);
        assert Pages(s, size, n) == s[..a] + p;
        assert s[..a] + s[a..a + |p|] == s[..a + |p|];
      }
    }
  }

  lemma MulSucc(n: nat, m: nat)
    requires n >= 1
    ensures n * m == (n - 1) * m + m
  {
  }

  /** Page `p` (from 1) of `List` is the `p`-th block of `size` active rows. */
  lemma ListPageIsBlock(t: Table, f: Filter)
    requires f.pageSize >= 1 && f.pageId >= 1
    requires (f.pageId - 1) * f.pageSize < 0x8000_0000_0000_0000
    ensures List(t, None, f).Returned?
    ensures List(t, None, f).value.records[0] == Page(ActiveRows(t), (f.pageId - 1) * f.pageSize, f.pageSize)
  {
    ProductSign(f.pageId - 1, f.pageSize);
    ListOffset(t, f);
    var off := Offset(f);
    assert List(t, None, f) == Returned(PageOf(ActiveRows(t), f, off), None);
  }

  /** Pages 1 to `CeilDiv(n, size)` together hold every one of `n` rows once, in
      scan order: the page count `List` reports is neither too small nor too
      large to leave a page empty. */
  lemma PagesCover(s: seq<User>, size: nat)
    requires size >= 1
    ensures Pages(s, size, CeilDiv(|s|, size)) == s
    ensures forall k :: 0 <= k < CeilDiv(|s|, size) ==> |Page(s, k * size, size)| > 0
  {
    var c := CeilDiv(|s|, size);
    var k := c * size;
    assert |s| <= k;
    PagesPrefix(s, size, c, k);
    forall j | 0 <= j < c
      ensures |Page(s, j * size, size)| > 0
    {
      MulMonotone(j, c - 1, size);
    }
  }

  lemma MulMonotone(a: nat, b: nat, m: nat)
    requires a <= b
    ensures a * m <= b * m
  {
  }

  /** Twenty-five active rows at ten per page make three pages. */
  lemma ListCountExample(t: Table)
    requires |ActiveRows(t)| == 25
    ensures List(t, None, Filter(1, 10)).value.totalCount == 3
    ensures List(t, None, Filter(1, 10)).value.totalRecords == 25
    ensures List(t, None, Filter(1, 10)).value.records[0] == ActiveRows(t)[..10]
  {
  }
}

=== FILE: users_table.dfy ===
/** The `users` table as the store holds it: rows in scan order plus the next
    value of the `id` serial sequence, and the abstract behaviour of one store
    transaction. */
module UsersTable {
  import opened GoErrors
  import opened Query
  import opened UserModel

  datatype Table = Table(rows: seq<User>, nextId: nat)

  /** The store's own invariant: ids come from the serial sequence (so they are
      at least 1 and below its next value) and the primary key is unique. */
  predicate Valid(t: Table)
  {
    && t.nextId >= 1
    && (forall i :: 0 <= i < |t.rows| ==> 1 <= t.rows[i].id < t.nextId)
    && (forall i, j :: 0 <= i < j < |t.rows| ==> t.rows[i].id != t.rows[j].id)
  }

  /** What one transaction of an operation does, which the model cannot see:
      `fault` is the error returned by `Begin` or by the statement, if any, in the
      form the operation returns it; `commits` is whether the ignored `Commit`
      actually succeeds. */
  datatype Tx = Tx(fault: Option<Error>, commits: bool)

  /** The row with primary key `id`, soft-deleted or not: the table seen as a map
      from id to row. */
  function Lookup(t: Table, id: nat): (r: Option<User>)
    ensures r.Some? ==> r.value in t.rows && r.value.id == id
    ensures r.None? ==> forall i :: 0 <= i < |t.rows| ==> t.rows[i].id != id
  {
    var found := Where(t.rows, (u: User) => u.id == id);
    if |found| == 0 then
      assert forall i :: 0 <= i < |t.rows| ==> t.rows[i] in t.rows;
      None
    else
      assert found[0] in found;
      Some(found[0])
  }

  /** In a valid table, `Lookup` yields the one row that has the id. */
  lemma LookupUnique(t: Table, i: nat)
    requires Valid(t)
    requires i < |t.rows|
    ensures Lookup(t, t.rows[i].id) == Some(t.rows[i])
  {
    var id := t.rows[i].id;
    var found := Where(t.rows, (u: User) => u.id == id);
    assert t.rows[i] in found;
    var l := Lookup(t, id);
    var j :| 0 <= j < |t.rows| && t.rows[j] == l.value;
    assert i == j;
  }

  /** The active rows, in scan order (`WHERE deleted_at IS NULL`). */
  function ActiveRows(t: Table): (s: seq<User>)
    ensures forall u :: u in s <==> u in t.rows && Active(u)
  {
    Where(t.rows, Active)
  }

  /** Every row satisfies `p` exactly where it satisfied `q` in a table of the
      same length: a `WHERE p` over the new rows has as many results as a
      `WHERE q` over the old ones, and the same ids in the same order. */
  lemma {:induction false} WhereCorresponds(a: seq<User>, p: User -> bool, b: seq<User>, q: User -> bool)
    requires |a| == |b|
    requires forall i :: 0 <= i < |a| ==> (p(a[i]) <==> q(b[i])) && a[i].id == b[i].id
    ensures |Where(a, p)| == |Where(b, q)|
    ensures forall k :: 0 <= k < |Where(a, p)| ==> Where(a, p)[k].id == Where(b, q)[k].id
  {
    if |a| > 0 {
      assert forall i :: 0 <= i < |a[1..]| ==> a[1..][i] == a[i + 1] && b[1..][i] == b[i + 1];
      WhereCorresponds(a[1..], p, b[1..], q);
    }
  }
}
